=== FILE: README.md ===
# A tiny regular-expression engine, modelled in Dafny

This project models `regex.py`, a small regular-expression engine. Its patterns
have literal ASCII characters, `.` (any one character), `*` (zero or more of the
preceding unit) and `+` (one or more of the preceding unit). A pattern is
compiled into a chain of states, and a text is matched by stepping one state
transition per character.

The model follows the code as written, not the textbook meaning of these
operators. It has six modules:

- `States` (`states.dfy`): the state variants `Ascii`, `Dot`, `Star`, `Plus`,
  `Term` and `Elim`, and `Step`, the one-character transition (`check_self`).
  All four non-sentinel variants keep the Python field name `next`. For `Star`
  and `Plus`, `next` is the wrapped unit, and that unit's own `next` is the
  exit. The two sentinels are nullary constructors, tested with `.Term?` and
  `.Elim?` instead of by identity. `Wf` is the guard that no repetition wraps a
  sentinel. `NoElim` says `Elim` occurs nowhere in a state.
- `Chains` (`chains.dfy`): the shape of compiled chains. A unit is an atom under
  zero or more quantifiers. `Exit` is the state that follows a unit in the
  pattern (the continuation of its innermost atom). `Render`
  gives the pattern text a chain stands for, so it acts as a decompiler. This
  module proves that compiled chains are well formed and free of `Elim`, that
  stepping keeps a chain a chain, and that `Render` is injective on chains.
- `Matcher` (`matcher.dfy`): `Unwind` (`__get_out_of_star`) and `Matches`
  (`check_string`). `Matches` is a pure function of the start state and the
  text. It is proved to agree with `Run`, which steps the whole text with no early
  exit.
- `Compiler` (`compiler.dfy`): `InitState` (`__init_state`), `Fold` (the
  `while i >= 0` loop of `RegexFSM.__init__`) and `Compile`, with lemmas about
  each. Like the original,
  they read the pattern right to left and thread the chain built so far, which
  starts at `Term`.
- `Properties` and `MainChecks` (`properties.dfy`, `mainchecks.dfy`): whole-engine
  theorems, the assertions of the `__main__` block, and concrete instances of
  behaviour peculiar to this engine.

Behaviours reproduced from the code:

- `Step` and `Unwind` leave a `Star` through `next.next`, the wrapped unit's own
  `next`. That is `Exit` only when the wrapped unit is an atom; when it is
  itself a quantifier, the `Star` leaves to the inner unit.
- When a `Star`'s unit rejects a character, the `Star` steps to `next.next`, and
  that character is spent on the exit. It is not tested again
  against what follows. So `a*b` rejects `b` but accepts `xb`, and `a*b+`
  rejects `ab`.
- At end of input only `Star` is unwound, never `Plus`. So `aa+` rejects `a`.
- A quantifier applied to a quantifier compiles: `a*+` becomes
  `Plus(Star(Ascii('a', Term)))`. Unwinding a `Star` over a `Star` lands on the
  inner unit, so `a**` rejects the empty text.
- A `Star` over a `Dot` never exits on a character. So `.*a` rejects every text.

Where a textbook engine and this code differ, the model follows the code:

- A textbook engine rejects `a*+` at compile time. This code compiles it.
- A textbook engine accepts the empty text for `a**`, because a repetition of
  something that may match nothing may itself match nothing. This code rejects
  it: unwinding the outer `*` lands on the inner unit, not on what follows.
- A textbook engine tries the character on which a `*` gives up against what
  follows the `*`. This code spends that character on the exit.
- A textbook engine accepts the empty text for `a+*` and rejects `ba`. This code
  compiles `a+*` to `Star(Plus(Ascii('a', Term)))`, which on `b` leaves to
  `Ascii('a', Term)`, so it accepts `ba`. At end of input it unwinds through
  `next.next` to `Ascii('a', Term)`, the `Plus`'s atom, which is not `Term`, so
  it rejects the empty text.

## Model

| member | source | states |
|---|---|---|
| States.Step | regex.py:25-72 | The one-character transition keeps the repetition guard. A step from an `Elim`-free state yields either `Elim` or another `Elim`-free state. Both sentinels step to `Elim`. |
| States.StarOverDotStays | regex.py:54-56 | A `Star` over a `Dot` whose continuation contains no `Elim` steps to itself on every character. |
| Chains.ChainWf | regex.py:47-66 | Every compiled chain passes the constructor guard of `StarState`/`PlusState` (no repetition wraps `Term` or `Elim`) and contains no `Elim`. |
| Chains.StepKeepsChain | regex.py:54-72 | Stepping a compiled chain yields either a compiled chain or `Elim`. This includes the `Star` exit to `self.next.next` and the fresh `StarState` built by `PlusState`. |
| Chains.RenderShape | regex.py:93-106 | The text of a chain is empty exactly for `Term`, is all ASCII, and never opens with a quantifier: it is a pattern the compiler accepts. |
| Chains.RenderInjective | regex.py:93-106 | Two compiled chains with the same pattern text are equal, so the compiler's output is determined by the text. |
| Matcher.Unwind | regex.py:121-124 | Unwinding terminates and never returns a `Star`. It leaves every non-`Star` state, `Plus` included, unchanged. It keeps the guard and never introduces `Elim`. |
| Matcher.UnwindIdempotent | regex.py:121-124 | Unwinding twice gives the same result as unwinding once. |
| Matcher.UnwindKeepsChain | regex.py:121-124 | Unwinding a compiled chain yields a compiled chain. |
| Matcher.Run | regex.py:110-111 | Stepping a whole text keeps the guard. Once a run reaches `Elim` it stays there. |
| Matcher.RunKeepsChain | regex.py:110-111 | Every state the loop visits from a compiled chain is a compiled chain or `Elim`. |
| Matcher.Matches | regex.py:108-119 | The loop with its early return is true exactly when stepping the whole text and then unwinding reaches `Term`. |
| Matcher.DeadPrefixRejects | regex.py:110-113 | If some prefix of the text drives the chain to `Elim`, the text is rejected, whatever follows. |
| Matcher.StarOverDotIgnoresText | regex.py:43-58 | A `Star` over a `Dot` absorbs any text. Its verdict is whether its continuation unwinds to `Term`, independent of the text. |
| Compiler.InitState | regex.py:93-106 | A unit that compiles consumes at least the character at `i`: the index handed back to the loop lies strictly left of `i` and is at least -1, so the loop terminates. A failure is never `EmptyPattern`, and a `NonAscii` failure points at or left of `i`, never past the characters read. |
| Compiler.InitStateUnit | regex.py:93-106 | The unit ending at index `i` is an atom under quantifiers, its exit is the chain built so far, and its text is exactly the pattern characters it consumed. |
| Compiler.InitStateFails | regex.py:93-106 | A unit fails to compile only on a non-ASCII character followed by nothing but quantifiers, or on a run of quantifiers reaching index 0. |
| Compiler.Fold | regex.py:86-89 | The loop's failure is never `EmptyPattern`, and a `NonAscii` failure points inside the prefix it compiled. When it succeeds, what it builds, and why it fails, are stated by `Compiler.FoldSucceedsIff`, `Compiler.FoldBuildsChain` and `Compiler.FoldFails`. |
| Compiler.FoldSucceedsIff | regex.py:86-89 | Compiling a prefix succeeds exactly when it is ASCII and does not open with a quantifier. |
| Compiler.FoldFails | regex.py:86-89 | A failed compilation of a prefix names its rightmost non-ASCII character, or else the prefix is ASCII and opens with a quantifier. |
| Compiler.FoldBuildsChain | regex.py:86-89 | Compiling a prefix in front of a chain gives a chain whose text is the prefix followed by the text of the chain it started from. |
| Compiler.Compile | regex.py:82-91 | Exactly the non-empty, ASCII, non-quantifier-led patterns compile. Each compiles to a well-formed, `Elim`-free chain other than `Term` whose text is the pattern. The empty pattern fails with `EmptyPattern`, a non-ASCII character fails with `NonAscii` at its rightmost position, and an all-ASCII pattern led by `*`/`+` fails with `DanglingQuantifier`. |
| Properties.CompileRender | regex.py:82-106 | Compiling the text of any chain other than `Term` gives that chain back. With `Compile`'s contract, compiling is a bijection from valid patterns onto such chains, and `Render` is its inverse. |
| Properties.LiteralChainMatches | regex.py:36-39 | A chain of `Ascii` states accepts exactly the text it spells. |
| Properties.LiteralPatternMatchesItself | regex.py:82-119 | A non-empty pattern of plain literal characters compiles to its `Ascii` chain and accepts exactly the text equal to itself. |
| MainChecks.OneOrMoreNeedsOne | regex.py:128-132 | `aa+` compiles to `Ascii('a', Plus(Ascii('a', Term)))`, accepts `aa`, and rejects `a`. |
| MainChecks.StarThenPlus | regex.py:134-136 | `a*b+` accepts `abbbbbb` and rejects the empty text. |
| MainChecks.QuantifiedQuantifier | regex.py:138-139 | `a*+` compiles to `Plus(Star(Ascii('a', Term)))` and rejects `ab`. |
| MainChecks.StarAcceptsEmpty | regex.py:141-142 | `a*` accepts the empty text. |
| MainChecks.StarExitSpendsCharacter | regex.py:54-58 | The character on which a `Star` exits is consumed: `a*b` rejects `b` and accepts `xb`, and `a*b+` rejects `ab`. |
| MainChecks.StackedStarNotUnwound | regex.py:121-124 | `a**` compiles to a `Star` over a `Star`, and unwinding it stops at the inner `Ascii`, so the empty text is rejected. |
| MainChecks.StarOverPlusLeavesToAtom | regex.py:54-58 | `a+*` compiles to `Star(Plus(Ascii('a', Term)))`. On a rejected character it leaves through `self.next.next` to `Ascii('a', Term)`, not to what follows the unit, so it accepts `ba`. At end of input, unwinding likewise goes through `next.next` to `Ascii('a', Term)`, which is not `Term`, so it rejects the empty text. |
| MainChecks.StarOverDotNeverExits | regex.py:43-58 | `.*a` rejects every text. |

## Left out

- The `Singleton` metaclass (regex.py:4-10) and identity comparisons with `is`: the sentinels are nullary constructors, and identity tests become constructor tests.
- The mutable `state` and `start_state` fields of `RegexFSM`: matching is a pure function of the start state and the text. The cursor reset at the start of `check_string` is therefore implicit, and so is the verdict's independence from earlier calls.
- The runtime guards are not modelled as exceptions. The empty-`char` check of `AsciiState` cannot fail on a Dafny `char`. The sentinel checks of `StarState` and `PlusState` are the precondition `Wf`, which compiled chains are proved to satisfy.
- Compiler.InitState: a quantifier at index 0 returns `DanglingQuantifier`. The original instead reads index -1, which Python wraps round to the end of the pattern: it either builds a unit from characters at the end (so `*a` compiles, to `Star(Ascii('a', Ascii('a', Term)))`) or raises `IndexError` once the indices run out. That behaviour is not modelled.
- Compiler.Compile: a pattern that opens with `*` or `+`, such as `*a`, fails with `DanglingQuantifier`. The original may compile it by reading `p[-1]`, as described for `Compiler.InitState`. The same choice shapes `Compiler.InitStateFails`, `Compiler.FoldSucceedsIff` and `Compiler.FoldFails`.
- Compiler.Compile: the original raises one `ValueError` for every bad pattern. The model tells the failures apart as `EmptyPattern`, `NonAscii` and `DanglingQuantifier`.
- Python's recursion limit (1000 frames by default) is not modelled. `__get_out_of_star` recurses once per trailing `Star`, `__init_state` once per stacked quantifier, and `check_self` once per nested repetition. So the original raises `RecursionError` on, for example, matching `""` against `a*` repeated 1000 times, or compiling `a` followed by 1000 `*`. The model has no depth bound: it accepts the first and compiles the second.
- The `__main__` block is not a runnable script here; its assertions are the `MainChecks` lemmas.
- `str.isascii` on one character is modelled as a code point below 128. Characters are Dafny `char` values (Unicode scalar values), with no normalisation.

=== FILE: chains.dfy ===
/** The shape of the chains the compiler builds, and the pattern text each one
    stands for. */
module Chains {
  import opened States

  predicate IsAsciiChar(c: char) {
    c as int < 128
  }

  predicate IsQuantifier(c: char) {
    c == '*' || c == '+'
  }

  /** A pattern character that compiles to an `Ascii` state. */
  predicate IsLiteral(c: char) {
    IsAsciiChar(c) && !IsQuantifier(c) && c != '.'
  }

  /** Number of non-sentinel nodes along the `next` links. */
  function Size(s: State): nat {
    if IsSentinel(s) then 0 else 1 + Size(s.next)
  }

  /** An atom (an `Ascii` of a literal character, or a `Dot`) under zero or
      more repetitions. */
  predicate IsUnit(s: State) {
    match s
    case Ascii(c, _) => IsLiteral(c)
    case Dot(_) => true
    case Star(u) => IsUnit(u)
    case Plus(u) => IsUnit(u)
    case Term => false
    case Elim => false
  }

  /** The state that follows a unit in the pattern: the continuation of its
      innermost atom. A `Star` over another quantifier does not leave to it;
      see `Step`. */
  function Exit(s: State): (r: State)
    ensures !IsSentinel(s) ==> Size(r) < Size(s)
  {
    match s
    case Ascii(_, n) => n
    case Dot(n) => n
    case Star(u) => Exit(u)
    case Plus(u) => Exit(u)
    case Term => s
    case Elim => s
  }

  /** A compiled chain: `Term`, or a unit whose exit is again a chain. */
  predicate Chain(s: State)
    decreases Size(s)
  {
    if IsSentinel(s) then s.Term? else IsUnit(s) && Chain(Exit(s))
  }

  /** The pattern text of a unit: its atom followed by its quantifiers,
      innermost first. */
  function RenderUnit(s: State): string {
    match s
    case Ascii(c, _) => [c]
    case Dot(_) => "."
    case Star(u) => RenderUnit(u) + "*"
    case Plus(u) => RenderUnit(u) + "+"
    case Term => ""
    case Elim => ""
  }

  /** The pattern text of a chain, read left to right. */
  function Render(s: State): string
    decreases Size(s)
  {
    if IsSentinel(s) then "" else RenderUnit(s) + Render(Exit(s))
  }

  /** A unit over a well-formed, `Elim`-free exit is itself well formed and
      `Elim`-free. */
  lemma {:induction false} UnitWf(u: State)
    requires IsUnit(u) && Wf(Exit(u)) && NoElim(Exit(u))
    ensures Wf(u) && NoElim(u)
  {
    match u
    case Ascii(_, _) =>
    case Dot(_) =>
    case Star(v) => UnitWf(v);
    case Plus(v) => UnitWf(v);
  }

  /** A unit over a chain is a chain, and its text is the unit's text
      followed by the text of its exit. */
  lemma UnitOverChain(u: State)
    requires IsUnit(u) && Chain(Exit(u))
    ensures Chain(u) && Render(u) == RenderUnit(u) + Render(Exit(u))
  {
  }

  /** Compiled chains satisfy the repetition guard and never contain `Elim`. */
  lemma {:induction false} ChainWf(s: State)
    requires Chain(s)
    ensures Wf(s) && NoElim(s)
    decreases Size(s)
  {
    if !IsSentinel(s) {
      ChainWf(Exit(s));
      UnitWf(s);
    }
  }

  /** Stepping a chain leaves a chain, or the dead sentinel. */
  lemma StepKeepsChain(s: State, c: char)
    requires Chain(s)
    ensures Wf(s)
    ensures Step(s, c).Elim? || Chain(Step(s, c))
  {
    ChainWf(s);
    if s.Star? {
      var u := s.next;
      if Step(u, c).Elim? && (u.Star? || u.Plus?) {
        assert IsUnit(u) && IsUnit(u.next);
        assert Exit(s) == Exit(u) == Exit(u.next);
        assert Chain(Exit(u.next));
      }
    }
  }

  /** The text of a unit is one atom character followed by quantifiers only. */
  lemma {:induction false} RenderUnitShape(u: State)
    requires IsUnit(u)
    ensures |RenderUnit(u)| >= 1
    ensures !IsQuantifier(RenderUnit(u)[0]) && IsAsciiChar(RenderUnit(u)[0])
    ensures forall i :: 1 <= i < |RenderUnit(u)| ==> IsQuantifier(RenderUnit(u)[i])
  {
    match u
    case Ascii(_, _) =>
    case Dot(_) =>
    case Star(v) => RenderUnitShape(v);
    case Plus(v) => RenderUnitShape(v);
  }

  predicate AllAscii(w: string) {
    forall i :: 0 <= i < |w| ==> IsAsciiChar(w[i])
  }

  lemma ConcatAscii(a: string, b: string)
    requires AllAscii(a) && AllAscii(b)
    ensures AllAscii(a + b)
  {
    forall i | 0 <= i < |a + b|
      ensures IsAsciiChar((a + b)[i])
    {
      if i >= |a| {
        assert (a + b)[i] == b[i - |a|];
      }
    }
  }

  /** The text of a chain is ASCII, and a non-empty one does not open with a
      quantifier. */
  lemma {:induction false} RenderShape(s: State)
    requires Chain(s)
    ensures Render(s) == [] <==> s.Term?
    ensures AllAscii(Render(s))
    ensures Render(s) != [] ==> !IsQuantifier(Render(s)[0])
    decreases Size(s)
  {
    if !IsSentinel(s) {
      assert IsUnit(s) && Chain(Exit(s));
      UnitOverChain(s);
      RenderUnitShape(s);
      RenderShape(Exit(s));
      var a, b := RenderUnit(s), Render(Exit(s));
      assert AllAscii(a);
      ConcatAscii(a, b);
      assert (a + b)[0] == a[0];
    }
  }

  /** The last character of a unit's text names its outermost quantifier. */
  lemma RenderUnitLast(u: State)
    requires IsUnit(u)
    ensures |RenderUnit(u)| >= 1
    ensures u.Star? <==> RenderUnit(u)[|RenderUnit(u)| - 1] == '*'
    ensures u.Plus? <==> RenderUnit(u)[|RenderUnit(u)| - 1] == '+'
  {
    RenderUnitShape(u);
  }

  /** Two units with the same text and the same exit are the same unit. */
  lemma {:induction false} RenderUnitInjective(u1: State, u2: State)
    requires IsUnit(u1) && IsUnit(u2)
    requires RenderUnit(u1) == RenderUnit(u2) && Exit(u1) == Exit(u2)
    ensures u1 == u2
  {
    RenderUnitLast(u1);
    RenderUnitLast(u2);
    if u1.Star? || u1.Plus? {
      var t := RenderUnit(u1);
      assert RenderUnit(u1.next) == t[..|t| - 1] == RenderUnit(u2.next);
      RenderUnitInjective(u1.next, u2.next);
    }
  }

  /** One half of the forced split: the first unit's text cannot be a proper
      prefix of the other's. */
  lemma ShorterHeadImpossible(a1: string, b1: string, a2: string, b2: string)
    requires a1 + b1 == a2 + b2
    requires |a1| >= 1
    requires forall i :: 1 <= i < |a2| ==> IsQuantifier(a2[i])
    requires b1 != [] ==> !IsQuantifier(b1[0])
    ensures |a2| <= |a1|
  {
    var w := a1 + b1;
    assert forall i :: 1 <= i < |a2| ==> IsQuantifier(w[i]) by {
      forall i | 1 <= i < |a2|
        ensures IsQuantifier(w[i])
      {
        assert w[i] == (a2 + b2)[i] == a2[i];
      }
    }
    assert |a1| < |w| ==> w[|a1|] == b1[0];
  }

  /** Splitting the text of a chain after its first unit is forced: the next
      unit's text cannot start with a quantifier. */
  lemma SplitAfterUnit(a1: string, b1: string, a2: string, b2: string)
    requires a1 + b1 == a2 + b2
    requires |a1| >= 1 && |a2| >= 1
    requires forall i :: 1 <= i < |a1| ==> IsQuantifier(a1[i])
    requires forall i :: 1 <= i < |a2| ==> IsQuantifier(a2[i])
    requires b1 != [] ==> !IsQuantifier(b1[0])
    requires b2 != [] ==> !IsQuantifier(b2[0])
    ensures a1 == a2 && b1 == b2
  {
    ShorterHeadImpossible(a1, b1, a2, b2);
    ShorterHeadImpossible(a2, b2, a1, b1);
    assert a1 == (a1 + b1)[..|a1|];
    assert a2 == (a2 + b2)[..|a2|];
    assert b1 == (a1 + b1)[|a1|..];
    assert b2 == (a2 + b2)[|a2|..];
  }

  /** Distinct chains have distinct texts. */
  lemma {:induction false} RenderInjective(s1: State, s2: State)
    requires Chain(s1) && Chain(s2)
    requires Render(s1) == Render(s2)
    ensures s1 == s2
    decreases Size(s1)
  {
    RenderShape(s1);
    RenderShape(s2);
    if !IsSentinel(s1) && !IsSentinel(s2) {
      RenderUnitShape(s1);
      RenderUnitShape(s2);
      RenderShape(Exit(s1));
      RenderShape(Exit(s2));
      SplitAfterUnit(RenderUnit(s1), Render(Exit(s1)), RenderUnit(s2), Render(Exit(s2)));
      RenderInjective(Exit(s1), Exit(s2));
      RenderUnitInjective(s1, s2);
    }
  }
}

=== FILE: compiler.dfy ===
/** The pattern compiler: the pattern is read from its last character to its
    first, threading the chain built so far, which starts as `Term`. */
module Compiler {
  import opened States
  import opened Chains

  /** Why a pattern does not compile. The index of `NonAscii` is the position
      of the offending character. */
  datatype CompileError =
    | EmptyPattern
    | NonAscii(index: nat)
    | DanglingQuantifier

  datatype Result<T> = Success(value: T) | Failure(error: CompileError)

  /** The patterns that compile: non-empty, ASCII only, and not opening with
      a quantifier. */
  predicate ValidPattern(p: string) {
    && p != []
    && AllAscii(p)
    && !IsQuantifier(p[0])
  }

  /** Every character of `p` strictly after index `lo`, up to index `hi`, is
      a quantifier. */
  predicate QuantifiersIn(p: string, lo: int, hi: int)
    requires -1 <= lo && hi < |p|
  {
    forall m :: lo < m <= hi ==> IsQuantifier(p[m])
  }

  /** `p[m]` is not ASCII and every character after it, up to index `hi`,
      is a quantifier. */
  predicate BadBeforeQuantifiers(p: string, m: nat, hi: int)
    requires hi < |p|
  {
    m <= hi && !IsAsciiChar(p[m]) && QuantifiersIn(p, m, hi)
  }

  /** A slice of `p` ending at index `hi` is the slice ending before it,
      followed by `p[hi]`. */
  lemma SliceSnoc(p: string, lo: nat, hi: nat)
    requires lo <= hi < |p|
    ensures p[lo..hi + 1] == p[lo..hi] + [p[hi]]
  {
  }

  /** Every character of `p` strictly after index `lo`, up to index `hi`, is
      ASCII. */
  predicate AsciiIn(p: string, lo: int, hi: int)
    requires -1 <= lo && hi < |p|
  {
    forall m :: lo < m <= hi ==> IsAsciiChar(p[m])
  }

  /** `p[m]` is not ASCII and every character after it, up to index `hi`,
      is ASCII. */
  predicate BadBeforeAscii(p: string, m: nat, hi: int)
    requires hi < |p|
  {
    m <= hi && !IsAsciiChar(p[m]) && AsciiIn(p, m, hi)
  }

  lemma QuantifiersAreAscii(p: string, lo: int, hi: int)
    requires -1 <= lo && hi < |p|
    requires QuantifiersIn(p, lo, hi)
    ensures AsciiIn(p, lo, hi)
  {
  }

  lemma AsciiInSplit(p: string, lo: int, mid: int, hi: int)
    requires -1 <= lo <= mid <= hi < |p|
    ensures AsciiIn(p, lo, hi) <==> AsciiIn(p, lo, mid) && AsciiIn(p, mid, hi)
  {
  }

  /** The prefix up to `j`, then the slice up to `i`, then `tail`, is the
      prefix up to `i`, then `tail`. */
  lemma PrefixThenSlice(p: string, j: int, i: int, tail: string)
    requires -1 <= j <= i < |p|
    ensures p[..j + 1] + (p[j + 1..i + 1] + tail) == p[..i + 1] + tail
  {
    assert p[..i + 1] == p[..j + 1] + p[j + 1..i + 1];
  }

  /** Compiles the unit whose last character is `p[i]`, in front of the chain
      `k` built so far. A quantifier compiles the unit to its left (with the
      same `k`) and wraps it; a quantifier with nothing to its left is an
      error. Returns the unit and the index just left of it. */
  function InitState(p: string, i: nat, k: State): (r: Result<(State, int)>)
    requires i < |p|
    ensures r.Success? ==> -1 <= r.value.1 < i
    ensures r.Failure? ==> !r.error.EmptyPattern? && (r.error.NonAscii? ==> r.error.index <= i)
    decreases i
  {
    var c := p[i];
    if c == '*' then
      if i == 0 then Failure(DanglingQuantifier)
      else
        match InitState(p, i - 1, k)
        case Success((u, j)) => Success((Star(u), j))
        case Failure(e) => Failure(e)
    else if c == '.' then
      Success((Dot(k), i - 1))
    else if c == '+' then
      if i == 0 then Failure(DanglingQuantifier)
      else
        match InitState(p, i - 1, k)
        case Success((u, j)) => Success((Plus(u), j))
        case Failure(e) => Failure(e)
    else if IsAsciiChar(c) then
      Success((Ascii(c, k), i - 1))
    else
      Failure(NonAscii(i))
  }

  /** The compiling loop: compiles `p[..i + 1]`, unit by unit from the right,
      in front of `k`. A failure never claims the pattern is empty, and a bad
      character it reports lies inside the prefix. */
  function Fold(p: string, i: int, k: State): (r: Result<State>)
    requires -1 <= i < |p|
    ensures r.Failure? ==> !r.error.EmptyPattern?
    ensures r.Failure? && r.error.NonAscii? ==> r.error.index <= i
    decreases i + 1
  {
    if i < 0 then Success(k)
    else
      match InitState(p, i, k)
      case Success((s, j)) => Fold(p, j, s)
      case Failure(e) => Failure(e)
  }

  /** `RegexFSM(pattern)`: compiles a whole pattern. Exactly the valid
      patterns compile, each to a well-formed, `Elim`-free chain whose text is
      the pattern itself. A failure says why: the pattern is empty, or the
      rightmost non-ASCII character is at `index`, or the pattern is ASCII but
      opens with a quantifier. */
  function Compile(p: string): (r: Result<State>)
    ensures r.Success? <==> ValidPattern(p)
    ensures r.Success? ==> Chain(r.value) && !r.value.Term? && Render(r.value) == p
    ensures r.Success? ==> Wf(r.value) && NoElim(r.value)
    ensures r == Failure(EmptyPattern) <==> p == []
    ensures r.Failure? && r.error.NonAscii? ==>
      && r.error.index < |p|
      && !IsAsciiChar(p[r.error.index])
      && forall m :: r.error.index < m < |p| ==> IsAsciiChar(p[m])
    ensures r == Failure(DanglingQuantifier) <==>
      p != [] && AllAscii(p) && IsQuantifier(p[0])
  {
    if p == [] then Failure(EmptyPattern)
    else
      var r := Fold(p, |p| - 1, Term);
      assert p[..|p|] == p;
      assert AsciiIn(p, -1, |p| - 1) <==> AllAscii(p);
      FoldSucceedsIff(p, |p| - 1, Term);
      if r.Success? then
        FoldBuildsChain(p, |p| - 1, Term);
        ChainWf(r.value);
        r
      else
        FoldFails(p, |p| - 1, Term);
        r
  }

  /** A compiled unit is an atom under quantifiers, its exit is the chain
      built so far, and its text is exactly the characters it consumed. */
  lemma {:induction false} InitStateUnit(p: string, i: nat, k: State)
    requires i < |p| && InitState(p, i, k).Success?
    ensures
      var (u, j) := InitState(p, i, k).value;
      IsUnit(u) && Exit(u) == k && RenderUnit(u) == p[j + 1..i + 1]
    decreases i
  {
    if IsQuantifier(p[i]) {
      QuantifierNeedsUnit(p, i, k);
      InitStateUnit(p, i - 1, k);
      var (u, j) := InitState(p, i - 1, k).value;
      QuantifiedStep(p, i, k, u, j);
    } else {
      AtomStep(p, i, k);
    }
  }

  /** A quantifier compiles only when the unit to its left does. */
  lemma QuantifierNeedsUnit(p: string, i: nat, k: State)
    requires i < |p| && InitState(p, i, k).Success? && IsQuantifier(p[i])
    ensures i > 0 && InitState(p, i - 1, k).Success?
  {
  }

  /** A character other than a quantifier compiles to a one-character unit. */
  lemma AtomStep(p: string, i: nat, k: State)
    requires i < |p| && InitState(p, i, k).Success? && !IsQuantifier(p[i])
    ensures
      var (u, j) := InitState(p, i, k).value;
      IsUnit(u) && Exit(u) == k && RenderUnit(u) == p[j + 1..i + 1]
  {
    assert p[i..i + 1] == [p[i]];
  }

  /** A quantifier wraps the unit `u` compiled to its left, keeping its exit
      and extending its text by the quantifier. */
  lemma QuantifiedStep(p: string, i: nat, k: State, u: State, j: int)
    requires 0 < i < |p| && IsQuantifier(p[i])
    requires InitState(p, i - 1, k) == Success((u, j))
    requires IsUnit(u) && Exit(u) == k && RenderUnit(u) == p[j + 1..i]
    ensures
      var (w, j') := InitState(p, i, k).value;
      IsUnit(w) && Exit(w) == k && RenderUnit(w) == p[j' + 1..i + 1]
  {
    SliceSnoc(p, j + 1, i);
    QuantifiedUnit(u, p[i]);
  }

  /** Wrapping a unit in a quantifier keeps it a unit with the same exit, and
      appends the quantifier to its text. */
  lemma QuantifiedUnit(u: State, c: char)
    requires IsUnit(u) && IsQuantifier(c)
    ensures var w := if c == '*' then Star(u) else Plus(u);
      IsUnit(w) && Exit(w) == Exit(u) && RenderUnit(w) == RenderUnit(u) + [c]
  {
  }

  /** A unit fails to compile on a non-ASCII character followed only by
      quantifiers, or on a run of quantifiers reaching the start. */
  lemma {:induction false} InitStateFails(p: string, i: nat, k: State)
    requires i < |p| && InitState(p, i, k).Failure?
    ensures
      var e := InitState(p, i, k).error;
      || (e.NonAscii? && BadBeforeQuantifiers(p, e.index, i))
      || (e.DanglingQuantifier? && QuantifiersIn(p, -1, i))
    decreases i
  {
    if (p[i] == '*' || p[i] == '+') && i > 0 {
      InitStateFails(p, i - 1, k);
    }
  }

  /** What one compiled unit tells about the characters it was read from,
      and how it extends a chain. */
  lemma UnitFacts(p: string, i: nat, k: State)
    requires i < |p| && InitState(p, i, k).Success?
    ensures
      var (s, j) := InitState(p, i, k).value;
      && AsciiIn(p, j, i)
      && !IsQuantifier(p[j + 1])
      && (Chain(k) ==> Chain(s) && Render(s) == p[j + 1..i + 1] + Render(k))
  {
    InitStateUnit(p, i, k);
    var (s, j) := InitState(p, i, k).value;
    UnitChars(p, j, i, s);
    if Chain(k) {
      UnitOverChain(s);
    }
  }

  /** The characters a unit was read from are ASCII, and the first of them is
      not a quantifier. */
  lemma UnitChars(p: string, j: int, i: int, s: State)
    requires -1 <= j < i < |p|
    requires IsUnit(s) && RenderUnit(s) == p[j + 1..i + 1]
    ensures AsciiIn(p, j, i) && !IsQuantifier(p[j + 1])
  {
    var t := RenderUnit(s);
    RenderUnitShape(s);
    forall m | j < m <= i
      ensures IsAsciiChar(p[m])
    {
      assert p[m] == t[m - j - 1];
    }
    assert p[j + 1] == t[0];
  }

  /** Compiling a prefix succeeds exactly when it is ASCII and does not open
      with a quantifier. */
  lemma {:induction false} FoldSucceedsIff(p: string, i: int, k: State)
    requires -1 <= i < |p|
    ensures Fold(p, i, k).Success? <==> AsciiIn(p, -1, i) && (i >= 0 ==> !IsQuantifier(p[0]))
    decreases i + 1
  {
    if i >= 0 {
      var u := InitState(p, i, k);
      if u.Success? {
        var (s, j) := u.value;
        UnitFacts(p, i, k);
        AsciiInSplit(p, -1, j, i);
        FoldSucceedsIff(p, j, s);
      } else {
        InitStateFails(p, i, k);
      }
    }
  }

  /** A failed compilation names the rightmost non-ASCII character, or else
      reports a leading quantifier on an ASCII prefix. */
  lemma {:induction false} FoldFails(p: string, i: int, k: State)
    requires -1 <= i < |p| && Fold(p, i, k).Failure?
    ensures
      var e := Fold(p, i, k).error;
      || (e.NonAscii? && BadBeforeAscii(p, e.index, i))
      || (e.DanglingQuantifier? && 0 <= i && IsQuantifier(p[0]) && AsciiIn(p, -1, i))
    decreases i + 1
  {
    var u := InitState(p, i, k);
    if u.Success? {
      var (s, j) := u.value;
      UnitFacts(p, i, k);
      FoldFails(p, j, s);
      var e := Fold(p, j, s).error;
      if e.NonAscii? {
        AsciiInSplit(p, e.index, j, i);
      } else {
        AsciiInSplit(p, -1, j, i);
      }
    } else {
      InitStateFails(p, i, k);
      var e := u.error;
      if e.NonAscii? {
        QuantifiersAreAscii(p, e.index, i);
      } else {
        QuantifiersAreAscii(p, -1, i);
      }
    }
  }

  /** Compiling a prefix in front of a chain gives a chain, whose text is the
      prefix followed by the text of the chain it was compiled in front of. */
  lemma {:induction false} FoldBuildsChain(p: string, i: int, k: State)
    requires -1 <= i < |p|
    requires Chain(k) && Fold(p, i, k).Success?
    ensures Chain(Fold(p, i, k).value)
    ensures Render(Fold(p, i, k).value) == p[..i + 1] + Render(k)
    decreases i + 1
  {
    if i >= 0 {
      var (s, j) := InitState(p, i, k).value;
      UnitFacts(p, i, k);
      FoldBuildsChain(p, j, s);
      PrefixThenSlice(p, j, i, Render(k));
    }
  }
}

=== FILE: mainchecks.dfy ===
/** The assertions the module runs as a script, and the behaviours of the
    matcher as written that differ from textbook regular expressions. */
module MainChecks {
  import opened States
  import opened Chains
  import opened Matcher
  import opened Compiler
  import opened Properties

  /** `aa+` accepts `aa` and rejects `a`: a trailing `Plus` is not unwound. */
  lemma OneOrMoreNeedsOne()
    ensures Compile("aa+") == Success(Ascii('a', Plus(Ascii('a', Term))))
    ensures Matches(Ascii('a', Plus(Ascii('a', Term))), "aa")
    ensures !Matches(Ascii('a', Plus(Ascii('a', Term))), "a")
  {
    assert Render(Ascii('a', Plus(Ascii('a', Term)))) == "aa+";
    CompileRender(Ascii('a', Plus(Ascii('a', Term))));
  }

  /** `a*b+` accepts `abbbbbb` and rejects the empty text. */
  lemma StarThenPlus()
    ensures Compile("a*b+") == Success(Star(Ascii('a', Plus(Ascii('b', Term)))))
    ensures Matches(Star(Ascii('a', Plus(Ascii('b', Term)))), "abbbbbb")
    ensures !Matches(Star(Ascii('a', Plus(Ascii('b', Term)))), "")
  {
    var s := Star(Ascii('a', Plus(Ascii('b', Term))));
    assert Render(s) == "a*b+";
    CompileRender(s);
    assert Matches(Star(Ascii('b', Term)), "bbbb");
    assert Matches(Plus(Ascii('b', Term)), "bbbbb") by {
      assert "bbbbb"[1..] == "bbbb";
    }
    assert Matches(s, "bbbbbb") by {
      assert Step(s, 'b') == Plus(Ascii('b', Term));
      assert "bbbbbb"[1..] == "bbbbb";
    }
    assert Step(s, 'a') == s;
    assert "abbbbbb"[1..] == "bbbbbb";
  }

  /** `a*+` compiles, to a `Plus` over a `Star`, and rejects `ab`. */
  lemma QuantifiedQuantifier()
    ensures Compile("a*+") == Success(Plus(Star(Ascii('a', Term))))
    ensures !Matches(Plus(Star(Ascii('a', Term))), "ab")
  {
    assert Render(Plus(Star(Ascii('a', Term)))) == "a*+";
    CompileRender(Plus(Star(Ascii('a', Term))));
  }

  /** `a*` accepts the empty text. */
  lemma StarAcceptsEmpty()
    ensures Compile("a*") == Success(Star(Ascii('a', Term)))
    ensures Matches(Star(Ascii('a', Term)), "")
  {
    assert Render(Star(Ascii('a', Term))) == "a*";
    CompileRender(Star(Ascii('a', Term)));
  }

  /** The character on which a `Star` exits is spent on the exit: `a*b`
      rejects `b` but accepts `xb`, and `a*b+` rejects `ab`. */
  lemma StarExitSpendsCharacter()
    ensures Compile("a*b") == Success(Star(Ascii('a', Ascii('b', Term))))
    ensures !Matches(Star(Ascii('a', Ascii('b', Term))), "b")
    ensures Matches(Star(Ascii('a', Ascii('b', Term))), "xb")
    ensures !Matches(Star(Ascii('a', Plus(Ascii('b', Term)))), "ab")
  {
    assert Render(Star(Ascii('a', Ascii('b', Term)))) == "a*b";
    CompileRender(Star(Ascii('a', Ascii('b', Term))));
  }

  /** Unwinding a `Star` over a `Star` lands on the inner unit, not on the
      exit: `a**` rejects the empty text that `a*` accepts. */
  lemma StackedStarNotUnwound()
    ensures Compile("a**") == Success(Star(Star(Ascii('a', Term))))
    ensures !Matches(Star(Star(Ascii('a', Term))), "")
  {
    assert Render(Star(Star(Ascii('a', Term)))) == "a**";
    CompileRender(Star(Star(Ascii('a', Term))));
  }

  /** A `Star` over a `Plus` leaves to the `Plus`'s atom, not past the unit,
      both on a character and at end of input: `a+*` accepts `ba`, and it
      rejects the empty text because unwinding lands on the atom. */
  lemma StarOverPlusLeavesToAtom()
    ensures Compile("a+*") == Success(Star(Plus(Ascii('a', Term))))
    ensures Step(Star(Plus(Ascii('a', Term))), 'b') == Ascii('a', Term)
    ensures Exit(Star(Plus(Ascii('a', Term)))) == Term
    ensures Matches(Star(Plus(Ascii('a', Term))), "ba")
    ensures Unwind(Star(Plus(Ascii('a', Term)))) == Ascii('a', Term)
    ensures !Matches(Star(Plus(Ascii('a', Term))), "")
  {
    assert Render(Star(Plus(Ascii('a', Term)))) == "a+*";
    CompileRender(Star(Plus(Ascii('a', Term))));
  }

  /** `.*a` rejects every text: the `Star` over `Dot` never exits on a
      character, and at the end it unwinds onto the unmatched `a`. */
  lemma StarOverDotNeverExits(text: string)
    ensures Compile(".*a") == Success(Star(Dot(Ascii('a', Term))))
    ensures !Matches(Star(Dot(Ascii('a', Term))), text)
  {
    assert Render(Star(Dot(Ascii('a', Term)))) == ".*a";
    CompileRender(Star(Dot(Ascii('a', Term))));
    StarOverDotIgnoresText(Ascii('a', Term), text);
  }
}

=== FILE: matcher.dfy ===
/** Driving a text through a chain: the per-character loop with its early
    exit, and the end-of-input unwinding of trailing repetitions. */
module Matcher {
  import opened States
  import opened Chains

  /** End-of-input unwinding: a trailing `Star` is left to `next.next`, its
      unit's own `next`, as often as needed. A trailing `Plus` is left as it
      is. */
  function Unwind(s: State): (r: State)
    requires Wf(s)
    ensures Wf(r) && !r.Star?
    ensures !s.Star? ==> r == s
    ensures NoElim(s) ==> NoElim(r)
  {
    match s
    case Star(u) =>
      assert Wf(u) && (NoElim(s) ==> NoElim(u));
      Unwind(u.next)
    case _ => s
  }

  /** The state reached by stepping every character of `text`, with no early
      exit: the reference the matcher is measured against. */
  function Run(s: State, text: string): (r: State)
    requires Wf(s)
    ensures Wf(r)
    ensures s.Elim? ==> r.Elim?
    decreases |text|
  {
    if text == [] then s else Run(Step(s, text[0]), text[1..])
  }

  /** The verdict of the matcher from `start` on `text`. The loop gives up as
      soon as a step yields `Elim`; since `Elim` only ever steps to `Elim`,
      that early exit never changes the verdict of stepping the whole text
      and then unwinding. */
  function Matches(start: State, text: string): (r: bool)
    requires Wf(start)
    ensures r <==> Unwind(Run(start, text)).Term?
    decreases |text|
  {
    if text == [] then Unwind(start).Term?
    else
      var n := Step(start, text[0]);
      if n.Elim? then false else Matches(n, text[1..])
  }

  /** Unwinding an already unwound state changes nothing. */
  lemma UnwindIdempotent(s: State)
    requires Wf(s)
    ensures Unwind(Unwind(s)) == Unwind(s)
  {
  }

  /** Running over a concatenation runs over each part in turn. */
  lemma {:induction false} RunAppend(s: State, a: string, b: string)
    requires Wf(s)
    ensures Run(s, a + b) == Run(Run(s, a), b)
    decreases |a|
  {
    if a == [] {
      assert a + b == b;
    } else {
      assert (a + b)[0] == a[0];
      assert (a + b)[1..] == a[1..] + b;
      RunAppend(Step(s, a[0]), a[1..], b);
    }
  }

  /** Once some prefix of the text drives the chain to `Elim`, the text is
      rejected, whatever follows. */
  lemma DeadPrefixRejects(start: State, text: string, i: nat)
    requires Wf(start)
    requires i <= |text| && Run(start, text[..i]).Elim?
    ensures !Matches(start, text)
  {
    assert text == text[..i] + text[i..];
    RunAppend(start, text[..i], text[i..]);
  }

  /** Unwinding keeps a compiled chain a compiled chain. */
  lemma {:induction false} UnwindKeepsChain(s: State)
    requires Chain(s)
    ensures Wf(s)
    ensures Chain(Unwind(s))
    decreases s
  {
    ChainWf(s);
    if s.Star? {
      var u := s.next;
      assert IsUnit(u) && Exit(s) == Exit(u);
      if u.Star? || u.Plus? {
        assert IsUnit(u.next) && Exit(u.next) == Exit(u);
      }
      assert Chain(u.next);
      UnwindKeepsChain(u.next);
    }
  }

  /** Every state the matcher visits from a compiled chain is a compiled
      chain or `Elim`. */
  lemma {:induction false} RunKeepsChain(s: State, text: string)
    requires Chain(s)
    ensures Wf(s)
    ensures Run(s, text).Elim? || Chain(Run(s, text))
    decreases |text|
  {
    ChainWf(s);
    if text != [] {
      StepKeepsChain(s, text[0]);
      var n := Step(s, text[0]);
      if !n.Elim? {
        RunKeepsChain(n, text[1..]);
      }
    }
  }

  /** A `Star` over a `Dot` swallows any text without ever leaving, so its
      verdict depends only on what follows it, never on the text. */
  lemma {:induction false} StarOverDotIgnoresText(n: State, text: string)
    requires Wf(n) && NoElim(n)
    ensures Run(Star(Dot(n)), text) == Star(Dot(n))
    ensures Matches(Star(Dot(n)), text) <==> Unwind(n).Term?
    decreases |text|
  {
    if text != [] {
      StarOverDotStays(n, text[0]);
      StarOverDotIgnoresText(n, text[1..]);
    }
  }
}

=== FILE: properties.dfy ===
/** Properties of the whole engine: compiling is undone by rendering, and a
    pattern of plain literals accepts exactly itself. */
module Properties {
  import opened States
  import opened Chains
  import opened Matcher
  import opened Compiler

  /** Rendering a chain and compiling the text gives the chain back. With the
      contract of `Compile`, compiling is a bijection from the valid patterns
      onto the chains other than `Term`, with `Render` as its inverse. */
  lemma CompileRender(s: State)
    requires Chain(s) && !s.Term?
    ensures Compile(Render(s)) == Success(s)
  {
    RenderShape(s);
    var p := Render(s);
    assert AllAscii(p);
    assert ValidPattern(p);
    RenderInjective(Compile(p).value, s);
  }

  predicate AllLiteral(w: string) {
    forall i :: 0 <= i < |w| ==> IsLiteral(w[i])
  }

  /** The chain of `Ascii` states spelling `w`, ending in `Term`. */
  function Literal(w: string): (s: State)
    requires AllLiteral(w)
    ensures Chain(s) && Render(s) == w
    decreases |w|
  {
    if w == [] then Term
    else
      var s := Ascii(w[0], Literal(w[1..]));
      assert Render(s) == [w[0]] + w[1..] == w;
      s
  }

  /** A chain of literals is driven to `Term` by its own text and by nothing
      else. */
  lemma {:induction false} LiteralChainMatches(w: string, text: string)
    requires AllLiteral(w)
    ensures Wf(Literal(w))
    ensures Matches(Literal(w), text) <==> text == w
    decreases |w|
  {
    ChainWf(Literal(w));
    if w != [] && text != [] {
      LiteralChainMatches(w[1..], text[1..]);
      assert text == w <==> text[0] == w[0] && text[1..] == w[1..];
    }
  }

  /** A pattern made only of literal characters compiles to its chain of
      `Ascii` states and accepts exactly the text equal to itself. */
  lemma LiteralPatternMatchesItself(w: string, text: string)
    requires w != [] && AllLiteral(w)
    ensures Compile(w) == Success(Literal(w))
    ensures Matches(Compile(w).value, text) <==> text == w
  {
    CompileRender(Literal(w));
    LiteralChainMatches(w, text);
  }
}

=== FILE: states.dfy ===
/** The state variants of the matching chain and their one-character transition. */
module States {

  /** One node of a compiled chain.
      `Ascii` and `Dot` carry their continuation in `next`. For `Star` and `Plus`
      the `next` field is the repeated unit, and a `Star` leaves to that unit's
      own `next` (`next.next`). When the unit is itself a `Star` or `Plus`, that
      is the inner unit, not what follows in the pattern. `Term` and `Elim` are
      the accepting and the dead sentinel; they carry nothing. */
  datatype State =
    | Ascii(ch: char, next: State)
    | Dot(next: State)
    | Star(next: State)
    | Plus(next: State)
    | Term
    | Elim

  predicate IsSentinel(s: State) {
    s.Term? || s.Elim?
  }

  /** No repetition anywhere in `s` wraps a sentinel: the guard that the
      constructors of the two repetition states enforce. */
  predicate Wf(s: State) {
    match s
    case Ascii(_, n) => Wf(n)
    case Dot(n) => Wf(n)
    case Star(u) => !IsSentinel(u) && Wf(u)
    case Plus(u) => !IsSentinel(u) && Wf(u)
    case Term => true
    case Elim => true
  }

  /** The dead sentinel occurs nowhere in `s`. */
  predicate NoElim(s: State) {
    match s
    case Ascii(_, n) => NoElim(n)
    case Dot(n) => NoElim(n)
    case Star(u) => NoElim(u)
    case Plus(u) => NoElim(u)
    case Term => true
    case Elim => false
  }

  /** The transition of `s` on one character.
      A `Star` whose unit rejects the character leaves to `next.next`, the
      unit's own `next`, and the character is spent on that exit. */
  function Step(s: State, c: char): (r: State)
    requires Wf(s)
    ensures Wf(r)
    ensures NoElim(s) ==> r.Elim? || NoElim(r)
    ensures IsSentinel(s) ==> r.Elim?
  {
    match s
    case Ascii(d, n) => if d == c then n else Elim
    case Dot(n) => n
    case Star(u) =>
      assert Wf(u) && (NoElim(s) ==> NoElim(u));
      if !Step(u, c).Elim? then s else u.next
    case Plus(u) => if !Step(u, c).Elim? then Star(u) else Elim
    case Term => Elim
    case Elim => Elim
  }

  /** A `Dot` over an `Elim`-free continuation never rejects, so a `Star`
      over it never leaves on a character. */
  lemma StarOverDotStays(n: State, c: char)
    requires Wf(n) && NoElim(n)
    ensures Step(Star(Dot(n)), c) == Star(Dot(n))
  {
  }
}
